=== FILE: README.md ===
# HiResMusicPlayer core in Dafny

A model of the logic of the HiResMusicPlayer Android application: the
bitrate-based "quality" label of a track, the `m:ss` time formatting, the
playback session of the main activity (song list, selected index, playing
flag, attached media player, and the transitions `playSong`, `nextSong`,
`previousSong`, `togglePlayPause` and the player's prepared and completion
callbacks) and the song list adapter's highlight of the playing row.

Files, one module each:

- `songs.dfy` (`Songs`): the `Song` record.
- `quality.dfy` (`Quality`): `getAudioQuality`, as bitrate estimate, tier and label.
- `timeformat.dfy` (`TimeFormat`): `formatTime` of the activity, with `%d` and
  `%02d` rendering and a parser for `m:ss` used to state what the text means.
- `adapter.dfy` (`SongAdapter`): the adapter's highlight index,
  `updateCurrentSong`, `onBindViewHolder`/`bind`, `getItemCount` and its own `formatTime`.
- `playback.dfy` (`Playback`): the session record, its transitions, the
  invariant every reachable session keeps, and the properties of navigation,
  play/pause and the callbacks.
- `wrappers.dfy` (`Wrappers`): `Option`.

The media player is a foreign library; the model keeps only what the
activity observes of it. Each `playSong` releases the old player and attaches
a new one, tagged with a fresh generation number. A released player never
calls back, so the prepared and completion events carry a generation and act
only for the attached player. Whether the foreign `setDataSource` and `prepareAsync`
returned without throwing is a boolean parameter (`opens`) of every step that starts a song. When it
throws, the activity swallows the exception and keeps the player attached, and
that player is never prepared.

Details of the code that the model keeps as written:

- `currentSongIndex` starts at 0, not -1. Only the adapter's highlight index starts at -1.
- `playSong` with an index outside the list returns silently; no error is raised.
- `nextSong`/`previousSong` are written as conditionals, not with `mod`. They
  agree with `(i + 1) mod n` and `(i - 1 + n) mod n` whenever the selected
  index is in range, which every reachable session satisfies (`Playback.Valid`).
- `playSong` leaves `isPlaying` as it was. Play/pause flips it as usual while
  the new player prepares, and the prepared callback sets it
  (`Playback.PauseWhilePreparing`).
- The completion listener is registered before the player is prepared, and the
  error listener returns `false`, so a playback error of the attached player
  runs `nextSong` just as the end of a track does (`Playback.Completed`). The
  media player rejects `start`, `pause` and `seekTo` on a player that is still
  preparing with such an error, so play/pause or a seek in that window skips to
  the next song; the model represents this as a completion event of that
  player following the toggle (`Playback.ToggleWhilePreparingSkips`).
- A failed `setDataSource` or `prepareAsync` is only logged (its stack trace is printed); neither the user nor the caller is told.

## Model

| member | source | states |
|---|---|---|
| Quality.Bitrate | app/src/main/java/com/musicplayer/hiresplayer/MainActivity.kt:241-243 | under one whole second the bitrate is 0; otherwise it is the truncated quotient of kilobits by whole seconds, characterised by `b*sec <= kb*8 < (b+1)*sec` |
| Quality.TierOf | app/src/main/java/com/musicplayer/hiresplayer/MainActivity.kt:245-250 | each tier is exactly one band of bitrates: lossless above 1000, hi-res audio in (500,1000], high quality in (256,500], standard at 256 or below (strict thresholds, first match wins) |
| Quality.AudioQuality | app/src/main/java/com/musicplayer/hiresplayer/MainActivity.kt:240-251 | the label is always one of the four texts; a track shorter than one second is "Standard Quality" whatever its size |
| Quality.LabelInjective | app/src/main/java/com/musicplayer/hiresplayer/MainActivity.kt:246-249 | the four labels are pairwise distinct, so the shown text identifies the tier |
| Quality.TierMonotone | app/src/main/java/com/musicplayer/hiresplayer/MainActivity.kt:243-250 | a higher bitrate never gets a lower-ranked tier |
| Quality.ThresholdsAreStrict | app/src/main/java/com/musicplayer/hiresplayer/MainActivity.kt:246-249 | bitrate 1000 is hi-res audio, 500 is high quality, 256 is standard; one more in each case moves up a tier |
| Quality.SizeMonotone | app/src/main/java/com/musicplayer/hiresplayer/MainActivity.kt:240-251 | for a fixed duration a bigger file never gets a lower-ranked label |
| Quality.OneMinuteEightMegabytes | app/src/main/java/com/musicplayer/hiresplayer/MainActivity.kt:240-251 | 8 000 000 bytes over 60 000 ms is 1041 kbit/s, "Hi-Res Lossless" |
| Quality.ZeroSizeZeroDuration | app/src/main/java/com/musicplayer/hiresplayer/MainActivity.kt:242-249 | an empty zero-length track is "Standard Quality" |
| TimeFormat.Decimal | app/src/main/java/com/musicplayer/hiresplayer/MainActivity.kt:268 | `%d` of a non-negative number is a non-empty digit string without a leading zero, one digit below 10 and two below 100 |
| TimeFormat.ValueOfDecimal | app/src/main/java/com/musicplayer/hiresplayer/MainActivity.kt:268 | reading the `%d` rendering back as a decimal number gives the number |
| TimeFormat.ZeroPad2 | app/src/main/java/com/musicplayer/hiresplayer/MainActivity.kt:268 | `%02d` is all digits, at least two, exactly two below 100, and reads back as the number |
| TimeFormat.Clock | app/src/main/java/com/musicplayer/hiresplayer/MainActivity.kt:268 | `"%d:%02d"` of minutes and seconds under sixty: digits without a leading zero, a colon, two digits, reading back as the minutes and the seconds |
| TimeFormat.FormatTime | app/src/main/java/com/musicplayer/hiresplayer/MainActivity.kt:264-269 | the text is `m:ss` with a minutes field without leading zero and a two-digit seconds field below 60, and minutes*60 + seconds equals the whole seconds of the input |
| TimeFormat.DecimalUnique | app/src/main/java/com/musicplayer/hiresplayer/MainActivity.kt:268 | every digit string without a leading zero is the `%d` rendering of its value, so the minutes field is fixed by its value |
| TimeFormat.TwoDigitsUnique | app/src/main/java/com/musicplayer/hiresplayer/MainActivity.kt:268 | every two-digit string with value below 60 is the `%02d` rendering of its value |
| TimeFormat.ParseClockCanonical | app/src/main/java/com/musicplayer/hiresplayer/MainActivity.kt:264-269 | the only text that parses as t whole seconds is the formatted text of t seconds, so parser and formatter are inverse |
| TimeFormat.FormatTimeRoundTrip | app/src/main/java/com/musicplayer/hiresplayer/MainActivity.kt:264-269 | parsing the formatted text gives back the input's whole seconds |
| TimeFormat.FormatTimeInjective | app/src/main/java/com/musicplayer/hiresplayer/MainActivity.kt:264-269 | two times format alike exactly when they have the same whole seconds |
| TimeFormat.FormatTimeTwoFive | app/src/main/java/com/musicplayer/hiresplayer/MainActivity.kt:264-269 | 125000 ms is "2:05" |
| TimeFormat.FormatTimeFiftyNine | app/src/main/java/com/musicplayer/hiresplayer/MainActivity.kt:264-269 | 59000 ms is "0:59" |
| SongAdapter.New | app/src/main/java/com/musicplayer/hiresplayer/SongAdapter.kt:10-15 | a new adapter highlights no row, since no position equals -1 |
| SongAdapter.UpdateCurrentSong | app/src/main/java/com/musicplayer/hiresplayer/SongAdapter.kt:17-22 | afterwards the highlight index is the argument; every row whose highlight changed is refreshed, and only the old and new index are |
| SongAdapter.FormatTime | app/src/main/java/com/musicplayer/hiresplayer/SongAdapter.kt:58-63 | the adapter's formatter gives the same text as the activity's for every non-negative time |
| SongAdapter.Bind | app/src/main/java/com/musicplayer/hiresplayer/SongAdapter.kt:30-56 | the row shows its song's title, artist and length, and is highlighted iff its position is the highlight index |
| SongAdapter.AtMostOneHighlighted | app/src/main/java/com/musicplayer/hiresplayer/SongAdapter.kt:31 | two highlighted rows are the same row |
| SongAdapter.UpdateHighlightsExactly | app/src/main/java/com/musicplayer/hiresplayer/SongAdapter.kt:17-31 | after `updateCurrentSong(i)` with i in the list, the row at i and no other is highlighted |
| SongAdapter.FormatTimeExamples | app/src/main/java/com/musicplayer/hiresplayer/SongAdapter.kt:58-63 | 59000 ms is "0:59" and 125000 ms is "2:05" |
| Playback.Start | app/src/main/java/com/musicplayer/hiresplayer/MainActivity.kt:24-27 | the initial session selects index 0, is not playing, has no player, highlights no row, and satisfies the session invariant |
| Playback.PlaySong | app/src/main/java/com/musicplayer/hiresplayer/MainActivity.kt:155-191 | an index outside the list changes nothing; otherwise it is selected and highlighted, a player no earlier event refers to is attached (preparing if the path opened, failed and never prepared otherwise), and the playing flag is unchanged |
| Playback.NextSong | app/src/main/java/com/musicplayer/hiresplayer/MainActivity.kt:217-220 | with the index in range it selects (i+1) mod n, the last wrapping to 0; on an empty list nothing changes |
| Playback.PreviousSong | app/src/main/java/com/musicplayer/hiresplayer/MainActivity.kt:212-215 | with the index in range it selects (i-1+n) mod n, 0 wrapping to n-1; on an empty list nothing changes |
| Playback.TogglePlayPause | app/src/main/java/com/musicplayer/hiresplayer/MainActivity.kt:194-210 | with a player attached only the playing flag flips; without one it starts the selected song, and on an empty list it changes nothing |
| Playback.Prepared | app/src/main/java/com/musicplayer/hiresplayer/MainActivity.kt:167-170 | only the attached, preparing player's callback has an effect, and it leaves that player started and the session playing the same song |
| Playback.Completed | app/src/main/java/com/musicplayer/hiresplayer/MainActivity.kt:161-183 | only the attached player's completion has an effect, whether it is preparing or started (a player whose path failed to open registered no listener), and it advances to (i+1) mod n |
| Playback.Info | app/src/main/java/com/musicplayer/hiresplayer/MainActivity.kt:226-238 | the panel exists iff the index is before the end of the list, and shows the song's title, artist, quality label and length |
| Playback.StepValid | app/src/main/java/com/musicplayer/hiresplayer/MainActivity.kt:155-220 | every transition keeps the session invariant |
| Playback.RunValid | app/src/main/java/com/musicplayer/hiresplayer/MainActivity.kt:155-220 | any sequence of gestures and callbacks keeps the session invariant |
| Playback.HighlightFollowsSelection | app/src/main/java/com/musicplayer/hiresplayer/MainActivity.kt:190-191 | in every reachable session the item count is the number of songs, and a row is highlighted iff a song has been started and the row is the selected one |
| Playback.ItemCountIsSongCount | app/src/main/java/com/musicplayer/hiresplayer/SongAdapter.kt:34 | in every reachable session the adapter's item count is the number of songs in the activity's list |
| Playback.NextPreviousInverse | app/src/main/java/com/musicplayer/hiresplayer/MainActivity.kt:212-220 | next then previous, and previous then next, return to the selected index |
| Playback.ToggleTwice | app/src/main/java/com/musicplayer/hiresplayer/MainActivity.kt:195-203 | with a player attached, two toggles restore the session |
| Playback.EmptyListNoOps | app/src/main/java/com/musicplayer/hiresplayer/MainActivity.kt:155-220 | on an empty list next, previous and play/pause change nothing |
| Playback.StaleCallbacksIgnored | app/src/main/java/com/musicplayer/hiresplayer/MainActivity.kt:161-178 | prepared and completion callbacks of any player other than the attached one change nothing |
| Playback.SupersededSelection | app/src/main/java/com/musicplayer/hiresplayer/MainActivity.kt:155-178 | selecting song 1 then song 2 before the first is prepared: the first player's prepared event is ignored and song 2 plays |
| Playback.PlayFromIdle | app/src/main/java/com/musicplayer/hiresplayer/MainActivity.kt:205-209 | play/pause with no player on a non-empty list starts the selected song, which plays once prepared |
| Playback.PauseWhilePreparing | app/src/main/java/com/musicplayer/hiresplayer/MainActivity.kt:167-201 | a pause pressed while the next song's player is preparing clears the flag, and a prepared callback reaching that player would set it again |
| Playback.ToggleWhilePreparingSkips | app/src/main/java/com/musicplayer/hiresplayer/MainActivity.kt:176-201 | play/pause on a preparing player followed by that player's error completion moves to (i+1) mod n |

## Left out

- Loading the song list (`loadSongs`): a query of the device's media store with a file-existence filter and a title sort; the model takes the resulting list as the argument of `Playback.Start`.
- The permission request flow: platform glue.
- The media player itself (`setDataSource`, `prepareAsync`, `start`, `pause`, `seekTo`, `release`, the error listener): a foreign library, reduced to the attach/prepared/completed transitions described above. A playback error is modelled only through the completion it triggers; which errors occur is up to the library. Seeking is not modelled as a step: its only effect on the session is the error completion of a player still preparing, which the model represents as a completion event.
- Progress polling with `Handler.postDelayed`: timer-driven; the formatting it uses is `TimeFormat.FormatTime`.
- Volume (`progress / 100f`): floating point, and no session state.
- `onDestroy`: it releases the player at the end of the activity's life, after which no event reaches the session.
- View inflation, colours and button texts: UI. The row's highlight is modelled as a boolean.
- Quality.Bitrate: song sizes and durations are unbounded non-negative integers, so the 64-bit overflow of `fileSizeKB * 8` and negative `Long` values are not modelled.
- TimeFormat.FormatTime: defined for non-negative times only; Kotlin's truncating `/` and `%` on a negative `Long` are not modelled.
- TimeFormat.Decimal: `String.format` uses the device's default locale; the model assumes that locale writes the ASCII digits 0-9, not another script's digits.
- Playback.TogglePlayPause: the model permits, but does not force, the error completion that the media player sends after play/pause on a player still preparing; which of the prepared or the completion event arrives is left to the library.

=== FILE: adapter.dfy ===
/** The list adapter: one row per song, the row of the song that was last
    started highlighted. Its whole state is the song list it shares with the
    activity and one index, `-1` before any song has been started. */
module SongAdapter {

  import opened Songs
  import TimeFormat
  import Wrappers

  datatype Adapter = Adapter(songs: seq<Song>, playingIndex: int)

  /** What one row shows. */
  datatype RowView = RowView(title: string, artist: string, durationText: string, highlighted: bool)

  /** Whether the row at `position` is drawn in the accent colour. */
  predicate Highlighted(a: Adapter, position: int)
  {
    position == a.playingIndex
  }

  /** A fresh adapter over `songs`: no row is highlighted. */
  function New(songs: seq<Song>): (a: Adapter)
    ensures a.songs == songs
    ensures forall p :: 0 <= p < |songs| ==> !Highlighted(a, p)
  {
    Adapter(songs, -1)
  }

  /** `updateCurrentSong(index)`: the new adapter and the positions passed to
      `notifyItemChanged`, in order. Afterwards `index` is the highlighted
      position; every row whose highlight changed is refreshed, and no row
      other than the old and the new highlighted one is. */
  function UpdateCurrentSong(a: Adapter, index: int): (r: (Adapter, seq<int>))
    ensures r.0.songs == a.songs && r.0.playingIndex == index
    ensures forall p :: Highlighted(a, p) != Highlighted(r.0, p) ==> p in r.1
    ensures forall p :: p in r.1 ==> p == a.playingIndex || p == index
    ensures |r.1| == 2 && r.1[0] == a.playingIndex
  {
    var oldIndex := a.playingIndex;
    var a' := a.(playingIndex := index);
    (a', [oldIndex, a'.playingIndex])
  }

  /** `getItemCount`. */
  function ItemCount(a: Adapter): nat
  {
    |a.songs|
  }

  /** `SongViewHolder.formatTime`: the same computation as the activity's,
      written out again in the adapter, and the same text for every time. */
  function FormatTime(timeMs: nat): (s: string)
    ensures s == TimeFormat.FormatTime(timeMs)
  {
    var totalSeconds := timeMs / 1000;
    var minutes := totalSeconds / 60;
    var seconds := totalSeconds % 60;
    TimeFormat.Clock(minutes, seconds)
  }

  /** `onBindViewHolder` with `bind`: the row at `position` shows that song,
      and it is highlighted exactly when it is the playing position. */
  function Bind(a: Adapter, position: int): (v: RowView)
    requires 0 <= position < ItemCount(a)
    ensures v.highlighted <==> position == a.playingIndex
    ensures v.title == a.songs[position].title && v.artist == a.songs[position].artist
    ensures TimeFormat.ParseClock(v.durationText) == Wrappers.Some(a.songs[position].duration / 1000)
  {
    var song := a.songs[position];
    TimeFormat.FormatTimeRoundTrip(song.duration);
    RowView(song.title, song.artist, FormatTime(song.duration), Highlighted(a, position))
  }

  /** At most one row is highlighted at any time. */
  lemma AtMostOneHighlighted(a: Adapter, p: int, q: int)
    requires 0 <= p < ItemCount(a) && 0 <= q < ItemCount(a)
    ensures Bind(a, p).highlighted && Bind(a, q).highlighted ==> p == q
  {
  }

  /** After `updateCurrentSong(i)` for a position in the list, exactly the row
      at `i` is highlighted. */
  lemma UpdateHighlightsExactly(a: Adapter, i: int)
    requires 0 <= i < ItemCount(a)
    ensures var a' := UpdateCurrentSong(a, i).0;
      forall p :: 0 <= p < ItemCount(a') ==> (Bind(a', p).highlighted <==> p == i)
  {
  }

  lemma FormatTimeExamples()
    ensures FormatTime(59000) == "0:59"
    ensures FormatTime(125000) == "2:05"
  {
    TimeFormat.FormatTimeTwoFive();
    TimeFormat.FormatTimeFiftyNine();
  }
}

=== FILE: playback.dfy ===
/** The playback session the activity keeps: the song list, the index of the
    selected song, whether it believes it is playing, and the media player it
    has attached, if any, together with the list adapter it drives.

    The media player is a foreign library. It is modelled by what the session
    can observe of it: each `playSong` releases the old player and attaches a
    new one, tagged here with a fresh generation number; a released player
    never calls back, so the asynchronous "prepared" and "completed" events
    carry the generation of the player they come from and act only when that
    player is still the attached one. */
module Playback {

  import opened Songs
  import opened Wrappers
  import SongAdapter
  import Quality
  import TimeFormat

  /** How far the attached player got: `Failed` when `setDataSource` or
      `prepareAsync` threw
      (the exception is swallowed and the player stays attached, but it never
      becomes prepared), `Preparing` after `prepareAsync`, `Ready` once the
      prepared callback has started it. */
  datatype Phase = Failed | Preparing | Ready

  datatype Player = NoPlayer | Attached(generation: nat, phase: Phase)

  datatype Session = Session(
    songs: seq<Song>,
    current: int,
    playing: bool,
    player: Player,
    nextGeneration: nat,
    adapter: SongAdapter.Adapter
  )

  /** The now-playing panel: title, artist, quality label and length. */
  datatype SongInfo = SongInfo(title: string, artist: string, quality: string, durationText: string)

  /** What every reachable session satisfies: the adapter shares the
      activity's list; the selected index is a valid position unless the
      list is empty; an attached player is the most recently created one;
      the session only believes it is playing with a player attached; and the
      adapter highlights the selected song once one has been started, and
      nothing before. */
  ghost predicate Valid(s: Session)
  {
    && s.adapter.songs == s.songs
    && (if |s.songs| == 0 then s.current == 0 else 0 <= s.current < |s.songs|)
    && (s.player.Attached? ==> |s.songs| > 0 && s.player.generation + 1 == s.nextGeneration)
    && (s.playing ==> s.player.Attached?)
    && s.adapter.playingIndex == (if s.player.Attached? then s.current else -1)
  }

  /** The activity once the song list is loaded: first song selected, nothing
      playing, no player, no row highlighted. */
  function Start(songs: seq<Song>): (s: Session)
    ensures Valid(s)
    ensures s.songs == songs && s.current == 0 && !s.playing && s.player == NoPlayer
    ensures forall p :: 0 <= p < |songs| ==> !SongAdapter.Highlighted(s.adapter, p)
  {
    Session(songs, 0, false, NoPlayer, 0, SongAdapter.New(songs))
  }

  /** `playSong(index)`; `opens` says whether the foreign `setDataSource`
      and `prepareAsync` calls returned without throwing. An index outside the list changes nothing.
      Otherwise the index is selected, a player that no earlier event can
      refer to replaces the old one, the adapter highlights the index, and the
      playing flag is left as it was. */
  function PlaySong(s: Session, index: int, opens: bool): (t: Session)
    ensures !(0 <= index < |s.songs|) ==> t == s
    ensures 0 <= index < |s.songs| ==>
      && t.songs == s.songs && t.current == index && t.playing == s.playing
      && t.player.Attached? && t.player.generation >= s.nextGeneration
      && t.nextGeneration > t.player.generation
      && t.player.phase == (if opens then Preparing else Failed)
      && t.adapter.songs == s.adapter.songs
      && SongAdapter.Highlighted(t.adapter, index)
  {
    if index < 0 || index >= |s.songs| then s
    else
      var player := Attached(s.nextGeneration, if opens then Preparing else Failed);
      var adapter := SongAdapter.UpdateCurrentSong(s.adapter, index).0;
      s.(current := index, player := player, nextGeneration := s.nextGeneration + 1, adapter := adapter)
  }

  /** `nextSong`: the following song, the last one wrapping to the first. */
  function NextSong(s: Session, opens: bool): (t: Session)
    ensures |s.songs| == 0 ==> t == s
    ensures 0 <= s.current < |s.songs| ==>
      t.current == (s.current + 1) % |s.songs| && t.player.Attached?
  {
    var newIndex := if s.current < |s.songs| - 1 then s.current + 1 else 0;
    PlaySong(s, newIndex, opens)
  }

  /** `previousSong`: the preceding song, the first one wrapping to the last. */
  function PreviousSong(s: Session, opens: bool): (t: Session)
    ensures |s.songs| == 0 ==> t == s
    ensures 0 <= s.current < |s.songs| ==>
      t.current == (s.current - 1 + |s.songs|) % |s.songs| && t.player.Attached?
  {
    var newIndex := if s.current > 0 then s.current - 1 else |s.songs| - 1;
    PlaySong(s, newIndex, opens)
  }

  /** `togglePlayPause`: with a player attached, only the playing flag flips;
      without one, the selected song is started if there are songs, and
      nothing happens on an empty list. */
  function TogglePlayPause(s: Session, opens: bool): (t: Session)
    ensures s.player.Attached? ==> t.playing != s.playing && t.(playing := s.playing) == s
    ensures s.player.NoPlayer? && |s.songs| == 0 ==> t == s
    ensures s.player.NoPlayer? && 0 <= s.current < |s.songs| ==>
      t.player.Attached? && t.current == s.current && t.playing == s.playing
  {
    match s.player
    case Attached(_, _) => s.(playing := !s.playing)
    case NoPlayer => if |s.songs| > 0 then PlaySong(s, s.current, opens) else s
  }

  /** The prepared callback of the player with generation `g`: it starts
      that player and sets the playing flag. It has an effect only when that
      player is the attached one and is still preparing. */
  function Prepared(s: Session, g: nat): (t: Session)
    ensures t != s ==> s.player == Attached(g, Preparing)
    ensures s.player == Attached(g, Preparing) ==>
      t.playing && t.player == Attached(g, Ready) && t.current == s.current && t.songs == s.songs
  {
    if s.player == Attached(g, Preparing) then s.(playing := true, player := Attached(g, Ready)) else s
  }

  /** The completion callback of the player with generation `g`. The
      listener is registered right after `prepareAsync`, so it exists for any
      player whose path opened, whether still preparing or started; it fires
      at the end of the track, and also after a playback error, because the
      error listener returns `false` ("not handled"). When that player is the
      attached one, the session moves on as `nextSong` does. A player whose
      `setDataSource` or `prepareAsync` threw registered no listener. */
  function Completed(s: Session, g: nat, opens: bool): (t: Session)
    ensures t != s ==> s.player.Attached? && s.player.generation == g && s.player.phase != Failed
    ensures s.player.Attached? && s.player.generation == g && s.player.phase != Failed ==>
      0 <= s.current < |s.songs| ==> t.current == (s.current + 1) % |s.songs| && t.player.Attached?
  {
    if s.player.Attached? && s.player.generation == g && s.player.phase != Failed then NextSong(s, opens) else s
  }

  /** `updateSongInfo(index)`: the panel for the song at `index`, or nothing
      for an index past the end of the list. */
  function Info(songs: seq<Song>, index: nat): (r: Option<SongInfo>)
    ensures r.Some? <==> index < |songs|
    ensures r.Some? ==>
      && r.value.title == songs[index].title && r.value.artist == songs[index].artist
      && r.value.quality == Quality.AudioQuality(songs[index])
      && TimeFormat.ParseClock(r.value.durationText) == Some(songs[index].duration / 1000)
  {
    if index < |songs| then
      var song := songs[index];
      TimeFormat.FormatTimeRoundTrip(song.duration);
      Some(SongInfo(song.title, song.artist, Quality.AudioQuality(song), TimeFormat.FormatTime(song.duration)))
    else None
  }

  /** Everything that can happen to the session: user gestures on the list
      and the transport buttons, and the media player's callbacks. `opens`
      is the outcome of the foreign `setDataSource` and `prepareAsync` for a step that starts a song. */
  datatype Event =
    | Select(index: int, opens: bool)
    | PlayPause(opens: bool)
    | Next(opens: bool)
    | Previous(opens: bool)
    | PreparedEvent(generation: nat)
    | CompletedEvent(generation: nat, opens: bool)

  function Step(s: Session, e: Event): Session
  {
    match e
    case Select(i, o) => PlaySong(s, i, o)
    case PlayPause(o) => TogglePlayPause(s, o)
    case Next(o) => NextSong(s, o)
    case Previous(o) => PreviousSong(s, o)
    case PreparedEvent(g) => Prepared(s, g)
    case CompletedEvent(g, o) => Completed(s, g, o)
  }

  /** The events handled one after another, as the main thread does. */
  function Run(s: Session, events: seq<Event>): Session
    decreases |events|
  {
    if |events| == 0 then s else Run(Step(s, events[0]), events[1..])
  }

  lemma StepValid(s: Session, e: Event)
    requires Valid(s)
    ensures Valid(Step(s, e))
  {
  }

  lemma {:induction false} RunValid(s: Session, events: seq<Event>)
    requires Valid(s)
    ensures Valid(Run(s, events))
    decreases |events|
  {
    if |events| > 0 {
      StepValid(s, events[0]);
      RunValid(Step(s, events[0]), events[1..]);
    }
  }

  /** In every session the activity reaches, the highlighted row is the
      selected song once a song has been started, and no row before. */
  lemma HighlightFollowsSelection(songs: seq<Song>, events: seq<Event>)
    ensures var s := Run(Start(songs), events);
      && SongAdapter.ItemCount(s.adapter) == |songs|
      && forall p :: 0 <= p < |songs| ==>
           (SongAdapter.Bind(s.adapter, p).highlighted <==> s.player.Attached? && p == s.current)
  {
    RunValid(Start(songs), events);
    assert Run(Start(songs), events).songs == songs by {
      RunKeepsSongs(Start(songs), events);
    }
  }

  lemma {:induction false} RunKeepsSongs(s: Session, events: seq<Event>)
    ensures Run(s, events).songs == s.songs
    decreases |events|
  {
    if |events| > 0 {
      RunKeepsSongs(Step(s, events[0]), events[1..]);
    }
  }

  /** The adapter counts the activity's songs in every reachable session:
      both hold the same list. */
  lemma {:induction false} ItemCountIsSongCount(songs: seq<Song>, events: seq<Event>)
    ensures SongAdapter.ItemCount(Run(Start(songs), events).adapter) == |songs|
  {
    RunValid(Start(songs), events);
    RunKeepsSongs(Start(songs), events);
  }

  /** Next and previous undo each other on a non-empty list. */
  lemma NextPreviousInverse(s: Session, o1: bool, o2: bool)
    requires Valid(s) && |s.songs| > 0
    ensures PreviousSong(NextSong(s, o1), o2).current == s.current
    ensures NextSong(PreviousSong(s, o1), o2).current == s.current
  {
  }

  /** With a player attached, two toggles restore the session. */
  lemma ToggleTwice(s: Session, o1: bool, o2: bool)
    requires s.player.Attached?
    ensures TogglePlayPause(TogglePlayPause(s, o1), o2) == s
  {
  }

  /** On an empty list the transport buttons do nothing. */
  lemma EmptyListNoOps(s: Session, o: bool)
    requires Valid(s) && |s.songs| == 0
    ensures NextSong(s, o) == s && PreviousSong(s, o) == s && TogglePlayPause(s, o) == s
  {
  }

  /** Callbacks from any player other than the attached one change nothing. */
  lemma StaleCallbacksIgnored(s: Session, g: nat, o: bool)
    requires Valid(s) && g + 1 != s.nextGeneration
    ensures Prepared(s, g) == s && Completed(s, g, o) == s
  {
  }

  /** Selecting song 1 and then song 2 before the first player is prepared:
      the first player's prepared event is ignored and song 2 is what plays. */
  lemma SupersededSelection(s: Session)
    requires Valid(s) && |s.songs| >= 3
    ensures var s1 := PlaySong(s, 1, true);
      var s2 := PlaySong(s1, 2, true);
      && Prepared(s2, s1.player.generation) == s2
      && Prepared(s2, s2.player.generation).playing
      && Prepared(s2, s2.player.generation).current == 2
  {
  }

  /** Play/pause with no player and a non-empty list starts the selected
      song: once its player is prepared, the session is playing it. */
  lemma PlayFromIdle(s: Session)
    requires Valid(s) && s.player.NoPlayer? && |s.songs| > 0
    ensures var t := TogglePlayPause(s, true);
      var u := Prepared(t, t.player.generation);
      u.playing && u.current == s.current && u.player.Attached? && u.player.phase == Ready
  {
  }

  /** `playSong` leaves the playing flag set while the next song's player is
      preparing, so play/pause in that window clears the flag; the prepared
      callback, should it reach that player, sets the flag again. */
  lemma PauseWhilePreparing(s: Session, g: nat, o: bool)
    requires Valid(s) && s.playing && s.player == Attached(g, Preparing)
    ensures !TogglePlayPause(s, o).playing
    ensures Prepared(TogglePlayPause(s, o), g).playing
  {
  }

  /** Play/pause on a player that is still preparing is rejected by the media
      player as an invalid operation; the error listener returns `false`, so
      the player then reports completion, and the session skips to the next
      song. That completion is a `CompletedEvent` of the same generation. */
  lemma ToggleWhilePreparingSkips(s: Session, g: nat, o1: bool, o2: bool)
    requires Valid(s) && s.player == Attached(g, Preparing)
    ensures Completed(TogglePlayPause(s, o1), g, o2).current == (s.current + 1) % |s.songs|
  {
  }
}

=== FILE: quality.dfy ===
/** The bitrate heuristic behind the "quality" label shown for the current
    track: an estimate of kilobits per second from file size and duration,
    sorted into four bands by strict thresholds, first match winning. */
module Quality {

  import opened Songs

  datatype Tier = HiResLossless | HiResAudio | HighQuality | StandardQuality

  /** The text shown for each tier. */
  function Label(t: Tier): string
  {
    match t
    case HiResLossless => "Hi-Res Lossless"
    case HiResAudio => "Hi-Res Audio"
    case HighQuality => "High Quality"
    case StandardQuality => "Standard Quality"
  }

  /** Position of a tier in the order of quality, lowest first. */
  function Rank(t: Tier): nat
  {
    match t
    case StandardQuality => 0
    case HighQuality => 1
    case HiResAudio => 2
    case HiResLossless => 3
  }

  /** Estimated bitrate in kbit/s: whole kilobytes times eight over whole
      seconds, every division truncating; a track shorter than one second
      has bitrate 0. */
  function Bitrate(size: nat, duration: nat): (b: nat)
    ensures duration < 1000 ==> b == 0
    ensures duration >= 1000 ==>
      b * (duration / 1000) <= (size / 1024) * 8 < (b + 1) * (duration / 1000)
  {
    var sizeKB := size / 1024;
    var seconds := duration / 1000;
    if seconds > 0 then (sizeKB * 8) / seconds else 0
  }

  /** The first-match threshold chain: each tier is exactly one band of
      bitrates, the bounds strict from below and inclusive from above. */
  function TierOf(bitrate: int): (t: Tier)
    ensures t == HiResLossless <==> 1000 < bitrate
    ensures t == HiResAudio <==> 500 < bitrate <= 1000
    ensures t == HighQuality <==> 256 < bitrate <= 500
    ensures t == StandardQuality <==> bitrate <= 256
  {
    if bitrate > 1000 then HiResLossless
    else if bitrate > 500 then HiResAudio
    else if bitrate > 256 then HighQuality
    else StandardQuality
  }

  /** The label the activity shows for a song. */
  function AudioQuality(song: Song): (text: string)
    ensures text in {"Hi-Res Lossless", "Hi-Res Audio", "High Quality", "Standard Quality"}
    ensures song.duration < 1000 ==> text == "Standard Quality"
  {
    Label(TierOf(Bitrate(song.size, song.duration)))
  }

  /** Different tiers are shown with different texts, so the label
      determines the tier. */
  lemma LabelInjective(t: Tier, u: Tier)
    ensures Label(t) == Label(u) <==> t == u
  {
  }

  /** A higher bitrate never gets a lower-ranked tier. */
  lemma TierMonotone(b1: int, b2: int)
    requires b1 <= b2
    ensures Rank(TierOf(b1)) <= Rank(TierOf(b2))
  {
  }

  /** At each threshold the lower tier wins: the comparisons are strict. */
  lemma ThresholdsAreStrict()
    ensures TierOf(1000) == HiResAudio && TierOf(1001) == HiResLossless
    ensures TierOf(500) == HighQuality && TierOf(501) == HiResAudio
    ensures TierOf(256) == StandardQuality && TierOf(257) == HighQuality
  {
  }

  /** Truncating division by a positive divisor is monotone in the dividend. */
  lemma {:induction false} DivMonotone(a: nat, b: nat, d: nat)
    requires a <= b && 0 < d
    ensures a / d <= b / d
  {
    var q := b / d;
    assert a < (q + 1) * d;
    assert (a / d) * d <= a;
    if a / d > q {
      MulMonotone(q + 1, a / d, d);
      assert false;
    }
  }

  lemma {:induction false} MulMonotone(x: nat, y: nat, d: nat)
    requires x <= y
    ensures x * d <= y * d
  {
  }

  /** For a fixed duration, a bigger file never gets a lower-ranked label. */
  lemma {:induction false} SizeMonotone(size1: nat, size2: nat, duration: nat)
    requires size1 <= size2
    ensures Rank(TierOf(Bitrate(size1, duration))) <= Rank(TierOf(Bitrate(size2, duration)))
  {
    if duration / 1000 > 0 {
      DivMonotone(size1, size2, 1024);
      MulMonotone(size1 / 1024, size2 / 1024, 8);
      DivMonotone((size1 / 1024) * 8, (size2 / 1024) * 8, duration / 1000);
    }
    TierMonotone(Bitrate(size1, duration), Bitrate(size2, duration));
  }

  /** An 8 000 000-byte file of one minute: 7812 KB, 7812 * 8 / 60 = 1041
      kbit/s, above the lossless threshold. */
  lemma OneMinuteEightMegabytes()
    ensures Bitrate(8000000, 60000) == 1041
    ensures AudioQuality(Song(0, "", "", "", 60000, 8000000)) == "Hi-Res Lossless"
  {
  }

  /** An empty song of zero length is standard quality. */
  lemma ZeroSizeZeroDuration()
    ensures AudioQuality(Song(0, "", "", "", 0, 0)) == "Standard Quality"
  {
  }
}

=== FILE: songs.dfy ===
/** The track record the media-store query produces: one playable audio file
    with its metadata. It carries no behaviour of its own. */
module Songs {

  /** `duration` is in milliseconds and `size` in bytes, both as the media
      store reports them; the Kotlin `Long` fields are unbounded here and never
      negative. */
  datatype Song = Song(
    id: int,
    title: string,
    artist: string,
    path: string,
    duration: nat,
    size: nat
  )
}

=== FILE: timeformat.dfy ===
/** The `m:ss` rendering of a duration in milliseconds, as the activity's and
    the list adapter's `formatTime` produce it with `"%d:%02d"`. */
module TimeFormat {

  import opened Wrappers

  predicate IsDigit(c: char)
  {
    '0' <= c <= '9'
  }

  predicate AllDigits(s: string)
  {
    forall i :: 0 <= i < |s| ==> IsDigit(s[i])
  }

  function DigitChar(d: nat): (c: char)
    requires d < 10
    ensures IsDigit(c)
  {
    (48 + d) as char
  }

  function DigitValue(c: char): nat
    requires IsDigit(c)
  {
    c as int - 48
  }

  /** Value of a string of decimal digits, most significant first. */
  function ValueOf(s: string): nat
    requires AllDigits(s)
  {
    if |s| == 0 then 0 else ValueOf(s[..|s| - 1]) * 10 + DigitValue(s[|s| - 1])
  }

  /** `%d` of a non-negative number: its shortest decimal rendering. */
  function Decimal(n: nat): (s: string)
    ensures 1 <= |s| && AllDigits(s)
    ensures |s| > 1 ==> s[0] != '0'
    ensures n < 10 <==> |s| == 1
    ensures 10 <= n < 100 <==> |s| == 2
    decreases n
  {
    if n < 10 then [DigitChar(n)] else Decimal(n / 10) + [DigitChar(n % 10)]
  }

  /** Reading the rendering back gives the number. */
  lemma {:induction false} ValueOfDecimal(n: nat)
    ensures ValueOf(Decimal(n)) == n
    decreases n
  {
    if n >= 10 {
      var s := Decimal(n);
      assert s[..|s| - 1] == Decimal(n / 10);
      ValueOfDecimal(n / 10);
    }
  }

  /** `%02d`: the decimal rendering, left-padded with zeros to width two. */
  function ZeroPad2(n: nat): (s: string)
    ensures AllDigits(s) && 2 <= |s|
    ensures n < 100 ==> |s| == 2
    ensures ValueOf(s) == n
  {
    ValueOfDecimal(n);
    if n < 10 then
      var s := ['0'] + Decimal(n);
      assert s[..1] == ['0'];
      assert s[..|s| - 1] == ['0'];
      s
    else
      Decimal(n)
  }

  /** `String.format("%d:%02d", minutes, seconds)`. */
  function Clock(minutes: nat, seconds: nat): (s: string)
    requires seconds < 60
    ensures |s| >= 4 && s[|s| - 3] == ':'
    ensures AllDigits(s[..|s| - 3]) && AllDigits(s[|s| - 2..])
    ensures ValueOf(s[..|s| - 3]) == minutes && ValueOf(s[|s| - 2..]) == seconds
    ensures |s| > 4 ==> s[0] != '0'
  {
    var m := Decimal(minutes);
    var p := ZeroPad2(seconds);
    ValueOfDecimal(minutes);
    var s := m + ":" + p;
    assert s[..|s| - 3] == m;
    assert s[|s| - 2..] == p;
    s
  }

  /** `formatTime(timeMs)` for a non-negative time: whole minutes without
      leading zeros, a colon and two digits of whole seconds; the two fields
      add up to the whole seconds of `timeMs`, and the seconds field is below
      sixty. */
  function FormatTime(timeMs: nat): (s: string)
    ensures |s| >= 4 && s[|s| - 3] == ':'
    ensures AllDigits(s[..|s| - 3]) && AllDigits(s[|s| - 2..])
    ensures ValueOf(s[..|s| - 3]) * 60 + ValueOf(s[|s| - 2..]) == timeMs / 1000
    ensures ValueOf(s[|s| - 2..]) < 60
    ensures |s| > 4 ==> s[0] != '0'
  {
    var totalSeconds := timeMs / 1000;
    var minutes := totalSeconds / 60;
    var seconds := totalSeconds % 60;
    Clock(minutes, seconds)
  }

  /** Reads an `m:ss` string back as a number of whole seconds; `None` for a
      string not of that shape, whose minutes field has a leading zero, or
      whose seconds field is sixty or more. */
  function ParseClock(s: string): (r: Option<nat>)
  {
    if |s| >= 4 && s[|s| - 3] == ':' && AllDigits(s[..|s| - 3]) && AllDigits(s[|s| - 2..])
       && (|s| > 4 ==> s[0] != '0') && ValueOf(s[|s| - 2..]) < 60
    then Some(ValueOf(s[..|s| - 3]) * 60 + ValueOf(s[|s| - 2..]))
    else None
  }

  /** Parsing a formatted time gives back the whole seconds it was made from. */
  lemma FormatTimeRoundTrip(timeMs: nat)
    ensures ParseClock(FormatTime(timeMs)) == Some(timeMs / 1000)
  {
  }

  /** Two times render alike exactly when they have the same whole seconds. */
  lemma FormatTimeInjective(a: nat, b: nat)
    ensures FormatTime(a) == FormatTime(b) <==> a / 1000 == b / 1000
  {
    if FormatTime(a) == FormatTime(b) {
      FormatTimeRoundTrip(a);
      FormatTimeRoundTrip(b);
    }
  }

  /** A digit string without a leading zero is a number's `%d` rendering. */
  lemma {:induction false} DecimalUnique(s: string)
    requires 1 <= |s| && AllDigits(s) && (|s| > 1 ==> s[0] != '0')
    ensures Decimal(ValueOf(s)) == s
    decreases |s|
  {
    var init := s[..|s| - 1];
    var c := s[|s| - 1];
    assert DigitChar(DigitValue(c)) == c;
    if |s| == 1 {
      assert init == [];
      assert ValueOf(s) == DigitValue(c);
      assert s == [c];
    } else {
      assert init[0] == s[0];
      DecimalUnique(init);
      ValuePositive(init);
      var v := ValueOf(s);
      assert v == ValueOf(init) * 10 + DigitValue(c);
      assert v / 10 == ValueOf(init) && v % 10 == DigitValue(c);
      assert s == init + [c];
    }
  }

  /** A digit string that does not start with '0' has a positive value. */
  lemma {:induction false} ValuePositive(s: string)
    requires 1 <= |s| && AllDigits(s) && s[0] != '0'
    ensures ValueOf(s) >= 1
    decreases |s|
  {
    if |s| > 1 {
      var init := s[..|s| - 1];
      assert init[0] == s[0];
      ValuePositive(init);
    }
  }

  /** Two digits with a value below sixty are that value's `%02d` rendering. */
  lemma TwoDigitsUnique(s: string)
    requires |s| == 2 && AllDigits(s) && ValueOf(s) < 60
    ensures ZeroPad2(ValueOf(s)) == s
  {
    var v := ValueOf(s);
    assert s[..1] == [s[0]] && s[..1][..0] == [];
    assert v == DigitValue(s[0]) * 10 + DigitValue(s[1]);
    assert DigitChar(DigitValue(s[0])) == s[0] && DigitChar(DigitValue(s[1])) == s[1];
    if v < 10 {
      assert s[0] == '0';
      assert ZeroPad2(v) == ['0', DigitChar(v)];
    } else {
      assert v / 10 == DigitValue(s[0]) && v % 10 == DigitValue(s[1]);
      assert Decimal(v / 10) == [s[0]];
      assert ZeroPad2(v) == Decimal(v / 10) + [DigitChar(v % 10)];
    }
  }

  /** The only `m:ss` text that reads as `t` whole seconds is the formatted
      text of `t` seconds: together with the round trip, the parser and the
      formatter are inverse to each other. */
  lemma {:induction false} ParseClockCanonical(s: string, t: nat)
    requires ParseClock(s) == Some(t)
    ensures FormatTime(t * 1000) == s
  {
    var m := s[..|s| - 3];
    var p := s[|s| - 2..];
    assert m[0] == s[0];
    DecimalUnique(m);
    TwoDigitsUnique(p);
    var mv := ValueOf(m);
    var pv := ValueOf(p);
    assert t == mv * 60 + pv;
    assert t / 60 == mv && t % 60 == pv;
    assert (t * 1000) / 1000 == t;
    assert s == m + ":" + p;
    assert FormatTime(t * 1000) == Clock(mv, pv);
  }

  /** 125 000 ms is two minutes and five seconds. */
  lemma FormatTimeTwoFive()
    ensures FormatTime(125000) == "2:05"
  {
    assert 125000 / 1000 == 125 && 125 / 60 == 2 && 125 % 60 == 5;
    assert FormatTime(125000) == Clock(2, 5);
    assert Decimal(2) == "2";
    assert ZeroPad2(5) == "05";
  }

  /** 59 000 ms is no minutes and fifty-nine seconds. */
  lemma FormatTimeFiftyNine()
    ensures FormatTime(59000) == "0:59"
  {
    assert 59000 / 1000 == 59 && 59 / 60 == 0 && 59 % 60 == 59;
    assert FormatTime(59000) == Clock(0, 59);
    assert Decimal(0) == "0";
    assert ZeroPad2(59) == "59";
  }
}

=== FILE: wrappers.dfy ===
/** An optional value, used where the player application
    answers "nothing" instead of a value. */
module Wrappers {

  datatype Option<+T> = None | Some(value: T)
}
